=== FILE: README.md ===
# rust-nvr relay core in Dafny

rust-nvr is a small network video relay. At start-up it reads camera stream
URLs from environment variables. For every stream it creates one broadcast
channel, registers that channel's sender in a shared client map under the
stream's name, and starts an ingest pipeline that publishes JPEG frames into
the channel. It also writes a viewer page that opens one WebSocket per stream.
Each WebSocket client names a stream. The handler looks the name up
case-insensitively and subscribes to that stream's channel. It greets the
client with "Connected to stream", starts two loops, and returns as soon as
the first of them finishes:

- an outgoing pump that forwards every frame as one binary message;
- an incoming monitor that reads and discards whatever the client sends.

The model has six modules:

- `Common`: `Option`, `Result`, bytes, the `Sender` of a broadcast channel,
  and the client registry `Clients` (stream name to list of senders).
- `Ascii`: lower-casing of stream names.
- `Gateway`: the key search and the subscribe gate at the start of
  `handle_ws_client`.
- `Pumps`: the outgoing and incoming loops, written as functions over traces
  of what the channel and the socket return.
- `Session`: the first-to-finish race of the two loops, driven by a schedule
  of turns, and the whole handler `HandleClient`.
- `Startup`: stream selection from the environment, the credentials, the
  registry and pipeline set-up loop, and the names handed to the viewer
  page.

The iteration order of a `HashMap` is unspecified. `FindKey` and `Enumerate`
therefore pick keys out of a set with Dafny's choice operator. Their contracts
promise only "some matching key" and "every key exactly once", never a
particular key or order.

Nothing stops two stream names from lower-casing alike: `CCTV_Cam1` and
`CCTV_CAM1` become two separate entries, and a request for either finds one
of them. The
model follows the code.
`Gateway.LookupUnique` states that the lookup result is determined once the
names are distinct after lower-casing. Where one environment lists a name
twice, the map insert in the selection loop keeps the value inserted last
(`Startup.SelectStreamsValues`).

## Model

| member | source | states |
|---|---|---|
| Ascii.Lower | src/web.rs:17 | lower-casing keeps the length, folds each character on its own, and leaves no upper-case letter |
| Ascii.LowerIdempotent | src/web.rs:17 | lower-casing an already lower-cased name changes nothing, which the page's lower-cased requests rely on |
| Gateway.FindKey | src/web.rs:16-18 | the search returns a key exactly when some registry key lower-cases like the request, and any key it returns is such a key |
| Gateway.Subscribe | src/web.rs:19-38 | the gate subscribes through the first sender of the found entry, and rejects exactly when nothing was found, the entry is missing or the entry has no senders, each with its own reason |
| Gateway.LookupUnique | src/web.rs:16-18 | if no two keys lower-case alike, every key that answers a request is the same key |
| Gateway.LookupExamples | src/web.rs:16-18 | "Cam1" is found by "CAM1", "cam1" and "Cam1", and "cam2" finds nothing |
| Pumps.FramesOf | src/web.rs:54-56 | the frames of a trace are payloads of frame outcomes of that trace, no more of them than there are steps |
| Pumps.Pump | src/web.rs:51-67 | the pump consumes part of its trace, writes at most one message per step taken, and is still waiting only when the whole trace is used up |
| Pumps.PumpStopsAtFirstEnd | src/web.rs:52-66 | the pump stops exactly at the first failed send or closed channel, for that step's reason, having written the payloads of all frames received up to there, in order and unchanged; with no such step it is still waiting |
| Pumps.PumpIgnoresAfterStop | src/web.rs:56-64 | after the pump stops, whatever the channel or the socket would do next changes nothing it writes |
| Pumps.PumpConcat | src/web.rs:52-66 | a pump still waiting continues on later input as a fresh pump would, its output appended |
| Pumps.LaggedIsSkipped | src/web.rs:60-62 | a lag report anywhere in the trace writes nothing and stops nothing: the pump behaves as if it were absent |
| Pumps.DeliversEveryFrame | src/web.rs:53-58 | while every send succeeds and the channel stays open, every frame is written, one message each, in receive order |
| Pumps.Monitor | src/web.rs:43-49 | the monitor ends at the first read error, and otherwise at the end of the stream after discarding every message |
| Pumps.MonitorIgnoresContent | src/web.rs:44-48 | the monitor's end depends only on where reads fail, never on what the messages contain |
| Session.Race | src/web.rs:69-72 | an interleaving of the two loops writes at most one message per step of the channel trace, and the pump cannot end it while still waiting |
| Session.RaceEndsAtFirstFinish | src/web.rs:69-72 | the session stays open exactly when neither loop finishes within the schedule; otherwise it ends for the reason of whichever loop reaches its finishing turn first, the pump on the outgoing turn of its ending step, the monitor on the incoming turn of its failed read or after its last read |
| Session.FinishTurnsDiffer | src/web.rs:69-72 | the two loops never finish on the same turn, so the `select!` always has exactly one first finisher when either finishes |
| Session.RaceWritesTaken | src/web.rs:51-72 | the session writes exactly what the pump writes on the channel steps it takes before the first loop finishes: one step per outgoing turn up to that turn, while the channel trace lasts, so nothing not yet received and nothing after the end |
| Session.RaceFollowsTasks | src/web.rs:69-72 | under every interleaving, the session writes a prefix of what the pump alone writes; if the pump finished first, it wrote all of it and ended for the pump's reason; if the monitor finished first, it ended for the monitor's reason |
| Session.OutgoingAloneIsPump | src/web.rs:51-72 | with only the pump scheduled, the session is exactly the pump |
| Session.IncomingAloneEnds | src/web.rs:43-72 | with only the monitor scheduled, the session sends nothing and ends when the monitor does |
| Session.HandleClient | src/web.rs:8-72 | a request is turned away as not found exactly when no key matches; the missing-entry branch is never taken; an empty-sender rejection means a matching key with no sender; a registry with one sender per stream serves exactly the requests that match; a served client gets its subscription from the matched entry's first sender, the greeting first and then exactly the frames the pump writes on the channel steps it takes before the session ends, in order; the session ends for the reason of whichever loop finishes first under the schedule, and stays open only when neither does |
| Startup.SelectStreams | src/main.rs:39-44 | only variables that carry the stream prefix and not the credential prefix are selected |
| Startup.SelectStreamsKeys | src/main.rs:40-43 | the selected names are exactly the stream variables' names, each kept whole with its prefix |
| Startup.SelectStreamsValues | src/main.rs:42 | each selected name keeps the unchanged value of its last occurrence in the environment |
| Startup.SelectStreamsOfDistinct | src/main.rs:40-43 | without repeated names, a variable is selected if and only if it is a stream variable, and it keeps its value |
| Startup.EnvVar | src/main.rs:35-36 | a variable lookup fails exactly when the name is absent, and otherwise yields the value of its first occurrence |
| Startup.ReadCredentials | src/main.rs:35-36 | user and password fall back to "admin" and "aaaa1111" when their variable is absent, and are otherwise the value of the variable's first occurrence in the environment |
| Startup.ClientsOfEntries | src/main.rs:58-59 | inserting one sender per distinct stream gives every stream an entry holding exactly its pipeline's sender |
| Startup.ClientsOfKeys | src/main.rs:58-59 | every registry key is the stream of some started pipeline |
| Startup.ClientsOfChannels | src/main.rs:56-59 | every registry entry has one sender of capacity 100, and its channel leads back to the pipeline started for that stream |
| Startup.Enumerate | src/main.rs:52 | walking a map lists every key exactly once and nothing else |
| Startup.SetupComplete | src/main.rs:52-60 | once every stream has had its turn, the registry has exactly the selected streams, one sender each, of capacity 100, on pairwise distinct channels, each equal to its pipeline's sender, and no stream has two pipelines |
| Startup.StartInOrder | src/main.rs:52-73 | turn i creates channel i, registers it as the stream's only sender, and starts a pipeline with the stream's URL, the credentials and that sender |
| Startup.SetupStreams | src/main.rs:52-73 | the registry has exactly the selected streams, each with one sender of capacity 100 on a channel of its own, and there is exactly one pipeline per stream carrying its URL, the credentials and the registered sender |
| Startup.ListKeys | src/main.rs:77 | the names collected from the registry are exactly its keys, each once |
| Startup.PageRequestServed | src/web.rs:367 | for a registry built at start-up, the page's request for a registered name, lower-cased, matches a key and every matching key has a sender, so the gate lets it through |
| Startup.PagesServed | src/web.rs:438-440 | every name the page lists is let through once lower-cased |
| Startup.PageNames | src/main.rs:77 | the page lists exactly the registry's names, each once, and the gate admits every one of them |
| Startup.Start | src/main.rs:35-77 | after start-up, the credentials are those read from the environment and the streams those selected from it; the registry holds exactly the selected stream names, one sender each; each stream has exactly one pipeline, started with its URL and the credentials, whose sender is the registered one; and the page lists exactly those names, each once, each of which the handler serves |

## Left out

- src/rtsp.rs is not part of this model. It holds the GStreamer pipeline, the appsink callback and the glib main loop, all foreign-library plumbing. A pipeline is modelled only by the arguments it is started with.
- The broadcast channel's ring is not modelled. Capacity 100 appears only as the constant each channel is created with. What `recv` returns, including the skip count of a lag report, is an input trace.
- Concurrency is not modelled: the tokio tasks, the pipeline threads, `select!` and the `Mutex` around the client map. The race is a schedule of turns, and the model stops where the handler returns.
- Session.Race: the `select!` drops the losing task's handle, which detaches that task without aborting it. In the source the losing task keeps running after the handler has returned. A pump that loses goes on receiving frames and sending them until a send fails or the channel closes. A monitor that loses goes on reading. None of that is part of the session's result.
- Sockets and their send results are inputs. Each received frame comes paired with whether its send succeeds.
- The result of sending the "Connected to stream" greeting is discarded by the source, so it is no input here. The greeting is always the first entry of `sent`.
- Ascii.Lower: folds only the ASCII letters A-Z. Rust's `to_lowercase` is Unicode-aware and can change a string's length. Names outside ASCII are therefore outside the model's claims.
- Startup.SelectStreams: `env::vars()` panics when some variable's name or value is not valid Unicode, which aborts start-up. Dafny strings cannot hold such values, so that case is not represented.
- Startup.EnvVar: `env::var` also fails on a value that is not valid Unicode. Dafny strings have no such values, so that case is not represented.
- `dotenv` loading, `gst::init`, warp routing, the WebSocket upgrade and serving are library calls with no logic of their own here.
- `println!` and `eprintln!` logging is left out, as is the error a pipeline thread reports.
- Startup.PageRequestServed: the page's request is taken to be the lower-cased name. That holds only for names that pass unchanged through a single-quoted JavaScript string literal (src/web.rs:439) and through a single URL path segment (src/web.rs:367, read back by the route at src/main.rs:92-93). A name holding `/`, `?`, `#`, a quote or a backslash reaches the handler cut off or altered, or breaks the script, so it is outside the claims of this lemma, of `Startup.PagesServed` and of the serving half of `Startup.PageNames` and `Startup.Start`.
- `create_html_file`: the page markup and the file write are left out. Only the list of names it receives is modelled, together with the lower-cased `/ws/` request its script makes for each name.

=== FILE: ascii.dfy ===
/** Case folding used for stream-name comparison. The source calls Rust's
    Unicode-aware `to_lowercase`; this model folds the ASCII letters only. */
module Ascii {

  predicate IsUpper(c: char)
  {
    'A' <= c <= 'Z'
  }

  /** No upper-case ASCII letter occurs in `s`. */
  predicate NoUpper(s: string)
  {
    forall i :: 0 <= i < |s| ==> !IsUpper(s[i])
  }

  function LowerChar(c: char): (d: char)
    ensures !IsUpper(d)
    ensures !IsUpper(c) ==> d == c
    ensures IsUpper(c) ==> 'a' <= d <= 'z' && d as int == c as int + 32
  {
    if IsUpper(c) then (c as int + 32) as char else c
  }

  /** Lower-cases every character of `s`, keeping its length. */
  function Lower(s: string): (t: string)
    ensures |t| == |s|
    ensures forall i :: 0 <= i < |s| ==> t[i] == LowerChar(s[i])
    ensures NoUpper(t)
  {
    if |s| == 0 then [] else [LowerChar(s[0])] + Lower(s[1..])
  }

  /** A string without upper-case letters is its own lower-case form. */
  lemma LowerFixesNoUpper(s: string)
    requires NoUpper(s)
    ensures Lower(s) == s
  {
  }

  /** Lower-casing twice is lower-casing once. */
  lemma LowerIdempotent(s: string)
    ensures Lower(Lower(s)) == Lower(s)
  {
    LowerFixesNoUpper(Lower(s));
  }
}

=== FILE: common.dfy ===
/** Shared vocabulary of the relay: optional values, results, bytes, and the
    client registry type (`Clients` in src/main.rs). */
module Common {

  /** The outcome of a search that may find nothing: the registry key
      search and the `env::var` lookup. */
  datatype Option<+T> = None | Some(value: T)

  /** A value or the reason there is none. */
  datatype Result<+T, +E> = Ok(value: T) | Err(error: E)

  /** One octet of an encoded frame. */
  newtype byte = x: int | 0 <= x < 256

  /** An encoded frame payload (`Vec<u8>`). */
  type Bytes = seq<byte>

  /** The sending half of one broadcast channel. Channels are told apart by
      `channel`, an identity handed out when the channel is created; `capacity`
      is the ring size the channel was created with. */
  datatype Sender = Sender(channel: nat, capacity: nat)

  /** Stream name to the senders of its broadcast channel. */
  type Registry<K> = map<K, seq<Sender>>

  /** The registry as the server holds it, keyed by stream-name strings. */
  type Clients = Registry<string>

  /** Every registered stream holds exactly one sender, as after start-up. */
  predicate OneSenderEach<K>(clients: Registry<K>)
  {
    forall k :: k in clients ==> |clients[k]| == 1
  }

  /** `a` is an initial segment of `b`. */
  predicate IsPrefix<T(==)>(a: seq<T>, b: seq<T>)
  {
    |a| <= |b| && a == b[..|a|]
  }
}

=== FILE: gateway.dfy ===
/** Stream lookup and the subscribe gate at the start of `handle_ws_client`
    (src/web.rs:13-39). */
module Gateway {
  import opened Common
  import opened Ascii

  /** A registry key answers a requested name when both lower-case alike. */
  predicate Matches(key: string, requested: string)
  {
    Lower(key) == Lower(requested)
  }

  /** Some key of `keys` answers `requested`. */
  predicate AnyMatch(keys: set<string>, requested: string)
  {
    exists k :: k in keys && Matches(k, requested)
  }

  /** The gate is sure to let `requested` through: some key answers it and
      every key that does has at least one sender. */
  predicate Admits(clients: Clients, requested: string)
  {
    && AnyMatch(clients.Keys, requested)
    && forall k :: k in clients && Matches(k, requested) ==> |clients[k]| > 0
  }

  /** Why a connection is turned away before anything is sent. */
  datatype Rejection =
    | StreamNotFound   // no key lower-cases like the request
    | EntryMissing     // the found key has no entry (cannot happen, see HandleClient)
    | NoSenders        // the entry's sender list is empty

  /** The `keys().find(..)` search. The map's iteration order is unspecified,
      so the candidates are visited in an arbitrary order and the result is
      some matching key, not a particular one. */
  method FindKey(keys: set<string>, requested: string) returns (found: Option<string>)
    ensures found.Some? <==> AnyMatch(keys, requested)
    ensures found.Some? ==> found.value in keys && Matches(found.value, requested)
  {
    var remaining := keys;
    while remaining != {}
      invariant remaining <= keys
      invariant forall k :: k in keys && k !in remaining ==> !Matches(k, requested)
      decreases remaining
    {
      var k :| k in remaining;
      if Lower(k) == Lower(requested) {
        return Some(k);
      }
      remaining := remaining - {k};
    }
    return None;
  }

  /** The nested `if let` on the search result: subscribe through the first
      sender of the found entry, or say why not. */
  function Subscribe(clients: Clients, found: Option<string>): (r: Result<Sender, Rejection>)
    ensures r.Ok? <==> found.Some? && found.value in clients && |clients[found.value]| > 0
    ensures r.Ok? ==> r.value == clients[found.value][0]
    ensures r == Err(StreamNotFound) <==> found.None?
    ensures r == Err(EntryMissing) <==> found.Some? && found.value !in clients
  {
    match found
    case None => Err(StreamNotFound)
    case Some(key) =>
      if key !in clients then Err(EntryMissing)
      else if |clients[key]| == 0 then Err(NoSenders)
      else Ok(clients[key][0])
  }

  /** A lower-cased request finds the key it was made from. */
  lemma LowerRequestMatches(key: string)
    ensures Matches(key, Lower(key))
  {
    LowerIdempotent(key);
  }

  /** When no two keys lower-case alike, the lookup result is determined:
      every matching key is the same key. */
  lemma LookupUnique(keys: set<string>, requested: string, k1: string, k2: string)
    requires forall a, b :: a in keys && b in keys && Lower(a) == Lower(b) ==> a == b
    requires k1 in keys && Matches(k1, requested)
    requires k2 in keys && Matches(k2, requested)
    ensures k1 == k2
  {
  }

  /** A stream registered as "Cam1" is found under "CAM1", "cam1" and
      "Cam1", and "cam2" finds nothing. */
  lemma LookupExamples()
    ensures AnyMatch({"Cam1"}, "CAM1") && AnyMatch({"Cam1"}, "cam1") && AnyMatch({"Cam1"}, "Cam1")
    ensures !AnyMatch({"Cam1"}, "cam2")
  {
    assert Matches("Cam1", "CAM1");
    assert Matches("Cam1", "cam1");
    assert Matches("Cam1", "Cam1");
    assert Lower("Cam1")[3] != Lower("cam2")[3];
  }
}

=== FILE: pumps.dfy ===
/** The two per-client loops of `handle_ws_client` as functions over traces:
    the outgoing pump (src/web.rs:51-67) and the incoming monitor
    (src/web.rs:43-49). The broadcast receiver and the socket are not modelled;
    what they return is the input. */
module Pumps {
  import opened Common

  /** What one `rx.recv()` returns. */
  datatype RecvOutcome = Frame(data: Bytes) | Lagged(skipped: nat) | Closed

  /** One receive, paired with whether sending its frame on the socket would
      succeed (ignored for anything but a frame). */
  datatype Step = Step(recv: RecvOutcome, sendOk: bool)

  /** Why the pump stopped; `Waiting` means the trace ran out while the pump
      was still waiting in `recv`. */
  datatype PumpStop = SendFailed | ChannelClosed | Waiting

  /** `written`: the frames handed to the socket, in order (the last one failed
      when `stop` is `SendFailed`); `consumed`: how many steps were taken. */
  datatype PumpResult = PumpResult(written: seq<Bytes>, consumed: nat, stop: PumpStop)

  /** A step after which the pump exits its loop. */
  predicate Ends(s: Step)
  {
    s.recv.Closed? || (s.recv.Frame? && !s.sendOk)
  }

  /** The payloads of the frame outcomes of `steps`, in order. */
  function FramesOf(steps: seq<Step>): (frames: seq<Bytes>)
    ensures |frames| <= |steps|
    ensures forall j :: 0 <= j < |frames| ==>
      exists i :: 0 <= i < |steps| && steps[i].recv == Frame(frames[j])
  {
    if |steps| == 0 then []
    else
      var rest := FramesOf(steps[1..]);
      assert forall j :: 0 <= j < |rest| ==>
        exists i :: 1 <= i < |steps| && steps[i].recv == Frame(rest[j]) by {
        forall j | 0 <= j < |rest|
          ensures exists i :: 1 <= i < |steps| && steps[i].recv == Frame(rest[j])
        {
          var i :| 0 <= i < |steps[1..]| && steps[1..][i].recv == Frame(rest[j]);
          assert steps[i + 1] == steps[1..][i];
        }
      }
      (if steps[0].recv.Frame? then [steps[0].recv.data] else []) + rest
  }

  /** The outgoing loop: a frame is sent as one binary message, a send
      failure or a closed channel ends the loop, a lag report is skipped.
      What it computes is stated by PumpStopsAtFirstEnd. */
  function Pump(trace: seq<Step>): (r: PumpResult)
    ensures r.consumed <= |trace|
    ensures |r.written| <= r.consumed
    ensures r.stop == Waiting ==> r.consumed == |trace|
    ensures r.stop != Waiting ==> r.consumed > 0
  {
    if |trace| == 0 then PumpResult([], 0, Waiting)
    else
      var s := trace[0];
      match s.recv
      case Frame(d) =>
        if s.sendOk then
          var r := Pump(trace[1..]);
          PumpResult([d] + r.written, r.consumed + 1, r.stop)
        else
          PumpResult([d], 1, SendFailed)
      case Lagged(_) =>
        var r := Pump(trace[1..]);
        PumpResult(r.written, r.consumed + 1, r.stop)
      case Closed =>
        PumpResult([], 1, ChannelClosed)
  }

  /** The pump runs up to and including the first step that ends it, writes
      exactly the frames received up to there, in order, and stops for the
      reason that step gives; with no such step it writes every frame and is
      still waiting. */
  lemma {:induction false} PumpStopsAtFirstEnd(trace: seq<Step>)
    ensures Pump(trace).stop == Waiting <==> forall i :: 0 <= i < |trace| ==> !Ends(trace[i])
    ensures Pump(trace).stop != Waiting ==>
      var c := Pump(trace).consumed;
      && 0 < c
      && Ends(trace[c - 1])
      && (forall i :: 0 <= i < c - 1 ==> !Ends(trace[i]))
    ensures Pump(trace).stop == SendFailed ==> trace[Pump(trace).consumed - 1].recv.Frame?
    ensures Pump(trace).stop == ChannelClosed ==> trace[Pump(trace).consumed - 1].recv.Closed?
    ensures Pump(trace).written == FramesOf(trace[..Pump(trace).consumed])
  {
    if |trace| == 0 {
    } else if Ends(trace[0]) {
      assert trace[..1][1..] == [];
    } else {
      var r := Pump(trace[1..]);
      PumpStopsAtFirstEnd(trace[1..]);
      assert trace[..r.consumed + 1][1..] == trace[1..][..r.consumed];
      assert forall i :: 1 <= i < |trace| ==> trace[i] == trace[1..][i - 1];
    }
  }

  /** Once the pump has stopped, nothing that the channel or socket would do
      afterwards changes what was written. */
  lemma {:induction false} PumpIgnoresAfterStop(t1: seq<Step>, t2: seq<Step>)
    requires Pump(t1).stop != Waiting
    ensures Pump(t1 + t2) == Pump(t1)
  {
    if Ends(t1[0]) {
    } else {
      assert (t1 + t2)[1..] == t1[1..] + t2;
      PumpIgnoresAfterStop(t1[1..], t2);
    }
  }

  /** A pump still waiting at the end of `t1` carries on with `t2` as if it
      had started there, its output appended. */
  lemma {:induction false} PumpConcat(t1: seq<Step>, t2: seq<Step>)
    requires Pump(t1).stop == Waiting
    ensures Pump(t1 + t2).written == Pump(t1).written + Pump(t2).written
    ensures Pump(t1 + t2).stop == Pump(t2).stop
    ensures Pump(t1 + t2).consumed == |t1| + Pump(t2).consumed
  {
    if |t1| == 0 {
      assert t1 + t2 == t2;
    } else {
      assert (t1 + t2)[1..] == t1[1..] + t2;
      PumpConcat(t1[1..], t2);
    }
  }

  /** A lag report anywhere in the trace neither sends nor stops anything:
      the pump behaves as if it were not there. */
  lemma {:induction false} LaggedIsSkipped(t1: seq<Step>, n: nat, ok: bool, t2: seq<Step>)
    ensures Pump(t1 + [Step(Lagged(n), ok)] + t2).written == Pump(t1 + t2).written
    ensures Pump(t1 + [Step(Lagged(n), ok)] + t2).stop == Pump(t1 + t2).stop
  {
    var lag := Step(Lagged(n), ok);
    if |t1| == 0 {
      assert t1 + [lag] + t2 == [lag] + t2;
      assert ([lag] + t2)[1..] == t2;
      assert t1 + t2 == t2;
    } else if Ends(t1[0]) {
      assert (t1 + [lag] + t2)[0] == t1[0];
      assert (t1 + t2)[0] == t1[0];
    } else {
      assert (t1 + [lag] + t2)[0] == t1[0];
      assert (t1 + t2)[0] == t1[0];
      assert (t1 + [lag] + t2)[1..] == t1[1..] + [lag] + t2;
      assert (t1 + t2)[1..] == t1[1..] + t2;
      LaggedIsSkipped(t1[1..], n, ok, t2);
    }
  }

  /** A trace in which every send succeeds and the channel stays open has all
      of its frames written, one message each, in receive order. */
  lemma DeliversEveryFrame(trace: seq<Step>)
    requires forall i :: 0 <= i < |trace| ==> !trace[i].recv.Closed? && trace[i].sendOk
    ensures Pump(trace).written == FramesOf(trace)
    ensures Pump(trace).stop == Waiting
  {
    PumpStopsAtFirstEnd(trace);
    assert trace[..|trace|] == trace;
  }

  /** A message read from the socket; its content is never looked at. */
  datatype Message =
    | Text(text: string)
    | Binary(data: Bytes)
    | Ping(ping: Bytes)
    | Pong(pong: Bytes)
    | Close

  /** What one `ws_rx.next()` yields while the stream is open. The end of the
      read sequence stands for `next()` returning `None`. */
  datatype ReadResult = Received(msg: Message) | ReadError

  datatype MonitorStop = ReadFailed | StreamEnded

  datatype MonitorResult = MonitorResult(consumed: nat, stop: MonitorStop)

  /** The incoming loop: successful reads are discarded, the first error or
      the end of the stream ends it. */
  function Monitor(inbound: seq<ReadResult>): (r: MonitorResult)
    ensures r.consumed <= |inbound|
    ensures r.stop == ReadFailed <==> exists i :: 0 <= i < |inbound| && inbound[i].ReadError?
    ensures r.stop == StreamEnded ==> r.consumed == |inbound|
    ensures r.stop == ReadFailed ==>
      && 0 < r.consumed
      && inbound[r.consumed - 1].ReadError?
      && (forall i :: 0 <= i < r.consumed - 1 ==> inbound[i].Received?)
  {
    if |inbound| == 0 then MonitorResult(0, StreamEnded)
    else if inbound[0].ReadError? then MonitorResult(1, ReadFailed)
    else
      var r := Monitor(inbound[1..]);
      assert forall i :: 1 <= i < |inbound| ==> inbound[i] == inbound[1..][i - 1];
      MonitorResult(r.consumed + 1, r.stop)
  }

  /** Two read sequences that fail at the same places end the monitor alike,
      whatever messages they carry. */
  lemma {:induction false} MonitorIgnoresContent(a: seq<ReadResult>, b: seq<ReadResult>)
    requires |a| == |b|
    requires forall i :: 0 <= i < |a| ==> (a[i].ReadError? <==> b[i].ReadError?)
    ensures Monitor(a) == Monitor(b)
  {
    if |a| > 0 && a[0].Received? {
      MonitorIgnoresContent(a[1..], b[1..]);
    }
  }
}

=== FILE: session.dfy ===
/** One viewer connection, `handle_ws_client` (src/web.rs:8-75): lookup and
    gate, the greeting, then the outgoing pump and the incoming monitor raced
    against each other until the first one finishes. */
module Session {
  import opened Common
  import opened Gateway
  import opened Pumps

  /** Which of the two tasks the scheduler lets take its next step. */
  datatype Side = Outgoing | Incoming

  /** `Open`: the schedule ran out with both tasks still running. */
  datatype SessionEnd =
    | Open
    | OutgoingEnded(pumpStop: PumpStop)
    | IncomingEnded(monitorStop: MonitorStop)

  datatype SessionResult = SessionResult(written: seq<Bytes>, end: SessionEnd)

  /** The two tasks interleaved by `schedule`, up to the moment the `select!`
      returns: the handler returns as soon as either task finishes. The
      other task is detached, not aborted, and what it does after the handler
      has returned is not part of the result. An outgoing turn with its
      trace used up is the pump still waiting in `recv`; an incoming turn
      with no reads left is the socket stream ending. */
  function Race(schedule: seq<Side>, out: seq<Step>, inbound: seq<ReadResult>): (r: SessionResult)
    ensures |r.written| <= |out|
    ensures r.end != OutgoingEnded(Waiting)
    decreases |schedule|
  {
    if |schedule| == 0 then SessionResult([], Open)
    else
      match schedule[0]
      case Outgoing =>
        if |out| == 0 then Race(schedule[1..], out, inbound)
        else (
          match out[0].recv
          case Frame(d) =>
            if out[0].sendOk then
              var r := Race(schedule[1..], out[1..], inbound);
              SessionResult([d] + r.written, r.end)
            else
              SessionResult([d], OutgoingEnded(SendFailed))
          case Lagged(_) => Race(schedule[1..], out[1..], inbound)
          case Closed => SessionResult([], OutgoingEnded(ChannelClosed)))
      case Incoming =>
        if |inbound| == 0 then SessionResult([], IncomingEnded(StreamEnded))
        else if inbound[0].ReadError? then SessionResult([], IncomingEnded(ReadFailed))
        else Race(schedule[1..], out, inbound[1..])
  }

  /** Whatever the interleaving, the session writes an initial part of what
      the pump alone would write: nothing out of order, nothing after the
      session ends. If the pump finished first the session wrote all of it
      and stopped for the pump's reason; if the monitor finished first it
      stopped for the monitor's reason. */
  lemma {:induction false} RaceFollowsTasks(schedule: seq<Side>, out: seq<Step>,
                                            inbound: seq<ReadResult>)
    ensures IsPrefix(Race(schedule, out, inbound).written, Pump(out).written)
    ensures Race(schedule, out, inbound).end.OutgoingEnded? ==>
      && Race(schedule, out, inbound).written == Pump(out).written
      && Race(schedule, out, inbound).end.pumpStop == Pump(out).stop
    ensures Race(schedule, out, inbound).end.IncomingEnded? ==>
      Race(schedule, out, inbound).end.monitorStop == Monitor(inbound).stop
    decreases |schedule|
  {
    if |schedule| == 0 {
    } else if schedule[0] == Outgoing {
      if |out| == 0 {
        RaceFollowsTasks(schedule[1..], out, inbound);
      } else if !Ends(out[0]) {
        RaceFollowsTasks(schedule[1..], out[1..], inbound);
      }
    } else if |inbound| > 0 && inbound[0].Received? {
      RaceFollowsTasks(schedule[1..], out, inbound[1..]);
    }
  }

  /** Schedule of `n` turns all given to one side. */
  function Turns(side: Side, n: nat): (s: seq<Side>)
    ensures |s| == n
    ensures forall i :: 0 <= i < n ==> s[i] == side
  {
    seq(n, _ => side)
  }

  /** With the monitor never scheduled and enough turns, the session is
      exactly the pump. */
  lemma {:induction false} OutgoingAloneIsPump(n: nat, out: seq<Step>, inbound: seq<ReadResult>)
    requires n >= |out|
    ensures Race(Turns(Outgoing, n), out, inbound).written == Pump(out).written
    ensures Pump(out).stop == Waiting ==> Race(Turns(Outgoing, n), out, inbound).end == Open
    ensures Pump(out).stop != Waiting ==>
      Race(Turns(Outgoing, n), out, inbound).end == OutgoingEnded(Pump(out).stop)
  {
    var s := Turns(Outgoing, n);
    if n == 0 {
    } else {
      assert s[0] == Outgoing;
      assert s[1..] == Turns(Outgoing, n - 1);
      if |out| == 0 {
        OutgoingAloneIsPump(n - 1, out, inbound);
      } else if !Ends(out[0]) {
        OutgoingAloneIsPump(n - 1, out[1..], inbound);
      }
    }
  }

  /** With the pump never scheduled, the session sends nothing and ends when
      the monitor does, for the monitor's reason. */
  lemma {:induction false} IncomingAloneEnds(n: nat, out: seq<Step>, inbound: seq<ReadResult>)
    requires n > |inbound|
    ensures Race(Turns(Incoming, n), out, inbound) ==
      SessionResult([], IncomingEnded(Monitor(inbound).stop))
  {
    var s := Turns(Incoming, n);
    assert s[0] == Incoming;
    assert s[1..] == Turns(Incoming, n - 1);
    if |inbound| > 0 && inbound[0].Received? {
      IncomingAloneEnds(n - 1, out, inbound[1..]);
    }
  }

  /** How many of the turns in `s` go to `side`. */
  function Count(s: seq<Side>, side: Side): (n: nat)
    ensures n <= |s|
  {
    if |s| == 0 then 0 else (if s[0] == side then 1 else 0) + Count(s[1..], side)
  }

  /** The length of the shortest prefix of `s` in which `side` has had `n`
      turns; beyond `|s|` when `s` gives it fewer. `ReachCounts` states what
      the value means. */
  function Reach(s: seq<Side>, side: Side, n: nat): nat
  {
    if n == 0 then 0
    else if |s| == 0 then 1
    else 1 + Reach(s[1..], side, if s[0] == side then n - 1 else n)
  }

  /** A reach within `s` is a prefix with exactly `n` turns for `side` that
      ends on one of them, so no shorter prefix has them all; a reach beyond
      `s` means `s` has fewer than `n`. */
  lemma {:induction false} ReachCounts(s: seq<Side>, side: Side, n: nat)
    ensures Reach(s, side, n) <= |s| ==> Count(s[..Reach(s, side, n)], side) == n
    ensures Reach(s, side, n) <= |s| && n > 0 ==>
      0 < Reach(s, side, n) && s[Reach(s, side, n) - 1] == side
    ensures Reach(s, side, n) > |s| <==> Count(s, side) < n
    ensures n > 0 ==> Reach(s, side, n) > 0
    decreases |s|
  {
    if n == 0 {
      assert s[..0] == [];
    } else if |s| > 0 {
      var n' := if s[0] == side then n - 1 else n;
      var r := Reach(s[1..], side, n');
      ReachCounts(s[1..], side, n');
      if r <= |s[1..]| {
        assert s[..r + 1][1..] == s[1..][..r];
      }
    }
  }

  /** Outgoing turns the pump needs to finish, if it ever does: its last step
      is the one that ends it. */
  function PumpTurns(out: seq<Step>): (n: Option<nat>)
    ensures n.None? <==> Pump(out).stop == Waiting
  {
    if Pump(out).stop == Waiting then None else Some(Pump(out).consumed)
  }

  /** Incoming turns the monitor needs to finish: up to the failed read, or
      one past the last read for the end of the stream. */
  function MonitorTurns(inbound: seq<ReadResult>): (n: nat)
    ensures n > 0
  {
    if Monitor(inbound).stop == ReadFailed then Monitor(inbound).consumed else |inbound| + 1
  }

  /** The turn of `schedule` on which the pump finishes; beyond the schedule
      when it does not finish within it. */
  function PumpFinish(schedule: seq<Side>, out: seq<Step>): nat
  {
    match PumpTurns(out)
    case None => |schedule| + 1
    case Some(n) => Reach(schedule, Outgoing, n)
  }

  /** The turn of `schedule` on which the monitor finishes; beyond the
      schedule when it does not finish within it. */
  function MonitorFinish(schedule: seq<Side>, inbound: seq<ReadResult>): nat
  {
    Reach(schedule, Incoming, MonitorTurns(inbound))
  }

  /** A turn that moves the pump one step closer to its finish. */
  lemma PumpFinishStep(schedule: seq<Side>, out: seq<Step>)
    requires |schedule| > 0 && schedule[0] == Outgoing
    requires |out| > 0 && !Ends(out[0])
    ensures PumpFinish(schedule, out) == 1 + PumpFinish(schedule[1..], out[1..])
  {
    assert Pump(out).stop == Pump(out[1..]).stop;
    assert Pump(out).consumed == 1 + Pump(out[1..]).consumed;
  }

  /** A turn that leaves the pump where it is: the other side's, or one in
      which it waits on an exhausted channel trace. */
  lemma PumpFinishIdle(schedule: seq<Side>, out: seq<Step>)
    requires |schedule| > 0
    requires schedule[0] == Incoming || |out| == 0
    ensures PumpFinish(schedule, out) == 1 + PumpFinish(schedule[1..], out)
  {
    if |out| == 0 {
      assert Pump(out).stop == Waiting;
    }
  }

  /** An incoming turn with a successful read moves the monitor one step
      closer to its finish. */
  lemma MonitorFinishStep(schedule: seq<Side>, inbound: seq<ReadResult>)
    requires |schedule| > 0 && schedule[0] == Incoming
    requires |inbound| > 0 && inbound[0].Received?
    ensures MonitorFinish(schedule, inbound) == 1 + MonitorFinish(schedule[1..], inbound[1..])
  {
    assert Monitor(inbound).stop == Monitor(inbound[1..]).stop;
    assert Monitor(inbound).consumed == 1 + Monitor(inbound[1..]).consumed;
  }

  /** An outgoing turn leaves the monitor where it is. */
  lemma MonitorFinishIdle(schedule: seq<Side>, inbound: seq<ReadResult>)
    requires |schedule| > 0 && schedule[0] == Outgoing
    ensures MonitorFinish(schedule, inbound) == 1 + MonitorFinish(schedule[1..], inbound)
  {
  }

  /** An outgoing turn on a step that ends the pump is its finishing turn. */
  lemma PumpFinishNow(schedule: seq<Side>, out: seq<Step>)
    requires |schedule| > 0 && schedule[0] == Outgoing
    requires |out| > 0 && Ends(out[0])
    ensures PumpFinish(schedule, out) == 1
  {
    assert PumpTurns(out) == Some(1);
    assert Reach(schedule, Outgoing, 1) == 1 + Reach(schedule[1..], Outgoing, 0);
  }

  /** An incoming turn on a failed read, or with no reads left, is the
      monitor's finishing turn. */
  lemma MonitorFinishNow(schedule: seq<Side>, inbound: seq<ReadResult>)
    requires |schedule| > 0 && schedule[0] == Incoming
    requires |inbound| == 0 || inbound[0].ReadError?
    ensures MonitorFinish(schedule, inbound) == 1
  {
    assert MonitorTurns(inbound) == 1;
    assert Reach(schedule, Incoming, 1) == 1 + Reach(schedule[1..], Incoming, 0);
  }

  /** The two tasks never finish on the same turn: the pump finishes on an
      outgoing turn and the monitor on an incoming one. */
  lemma FinishTurnsDiffer(schedule: seq<Side>, out: seq<Step>, inbound: seq<ReadResult>)
    ensures PumpFinish(schedule, out) <= |schedule| ==>
      PumpFinish(schedule, out) != MonitorFinish(schedule, inbound)
  {
    if PumpTurns(out).Some? {
      ReachCounts(schedule, Outgoing, PumpTurns(out).value);
    }
    ReachCounts(schedule, Incoming, MonitorTurns(inbound));
  }

  /** How the session ends, read off the finishing turns alone: for the
      reason of the task that finishes first within the schedule, or still
      open when neither does. */
  function FirstEnd(schedule: seq<Side>, out: seq<Step>, inbound: seq<ReadResult>): SessionEnd
  {
    var p := PumpFinish(schedule, out);
    var m := MonitorFinish(schedule, inbound);
    if p <= |schedule| && p < m then OutgoingEnded(Pump(out).stop)
    else if m <= |schedule| && m < p then IncomingEnded(Monitor(inbound).stop)
    else Open
  }

  /** The `select!` returns on the first task to finish: the session stays
      open exactly when neither finishes within the schedule, and otherwise
      ends for the reason of the one whose finishing turn comes first. */
  lemma {:induction false} RaceEndsAtFirstFinish(schedule: seq<Side>, out: seq<Step>,
                                                 inbound: seq<ReadResult>)
    ensures Race(schedule, out, inbound).end == Open <==>
      PumpFinish(schedule, out) > |schedule| && MonitorFinish(schedule, inbound) > |schedule|
    ensures (PumpFinish(schedule, out) <= |schedule|
      && PumpFinish(schedule, out) < MonitorFinish(schedule, inbound)) ==>
      Race(schedule, out, inbound).end == OutgoingEnded(Pump(out).stop)
    ensures (MonitorFinish(schedule, inbound) <= |schedule|
      && MonitorFinish(schedule, inbound) < PumpFinish(schedule, out)) ==>
      Race(schedule, out, inbound).end == IncomingEnded(Monitor(inbound).stop)
    ensures Race(schedule, out, inbound).end == FirstEnd(schedule, out, inbound)
    decreases |schedule|
  {
    FinishTurnsDiffer(schedule, out, inbound);
    if |schedule| == 0 {
    } else if schedule[0] == Outgoing {
      MonitorFinishIdle(schedule, inbound);
      if |out| == 0 {
        PumpFinishIdle(schedule, out);
        RaceEndsAtFirstFinish(schedule[1..], out, inbound);
      } else if !Ends(out[0]) {
        PumpFinishStep(schedule, out);
        assert Race(schedule, out, inbound).end == Race(schedule[1..], out[1..], inbound).end;
        RaceEndsAtFirstFinish(schedule[1..], out[1..], inbound);
      } else {
        PumpFinishNow(schedule, out);
      }
    } else {
      PumpFinishIdle(schedule, out);
      if |inbound| > 0 && inbound[0].Received? {
        MonitorFinishStep(schedule, inbound);
        RaceEndsAtFirstFinish(schedule[1..], out, inbound[1..]);
      } else {
        MonitorFinishNow(schedule, inbound);
      }
    }
  }

  function Min(a: nat, b: nat): (m: nat)
    ensures m <= a && m <= b && (m == a || m == b)
  {
    if a <= b then a else b
  }

  /** The number of turns the session runs before the `select!` returns:
      the first finishing turn, or the whole schedule. */
  function EndTurn(schedule: seq<Side>, out: seq<Step>, inbound: seq<ReadResult>): (e: nat)
    ensures e <= |schedule|
  {
    Min(|schedule|, Min(PumpFinish(schedule, out), MonitorFinish(schedule, inbound)))
  }

  /** How many channel steps the pump takes before the session ends: one per
      outgoing turn up to the end turn, while the trace lasts. */
  function Taken(schedule: seq<Side>, out: seq<Step>, inbound: seq<ReadResult>): (n: nat)
    ensures n <= |out|
  {
    Min(|out|, Count(schedule[..EndTurn(schedule, out, inbound)], Outgoing))
  }

  /** The frames the session hands to the socket: what the pump writes on
      the channel steps it takes before the session ends. */
  function Delivered(schedule: seq<Side>, out: seq<Step>, inbound: seq<ReadResult>): seq<Bytes>
  {
    Pump(out[..Taken(schedule, out, inbound)]).written
  }

  /** Counting the turns of a non-empty prefix starts with its first turn. */
  lemma CountPrefix(s: seq<Side>, p: nat, side: Side)
    requires 0 < p <= |s|
    ensures Count(s[..p], side) == (if s[0] == side then 1 else 0) + Count(s[1..][..p - 1], side)
  {
    assert s[..p][1..] == s[1..][..p - 1];
  }

  /** A turn that moves neither side to its finish moves the end turn by one. */
  lemma EndTurnStep(schedule: seq<Side>, out: seq<Step>, inbound: seq<ReadResult>,
                    out': seq<Step>, inbound': seq<ReadResult>)
    requires |schedule| > 0
    requires PumpFinish(schedule, out) == 1 + PumpFinish(schedule[1..], out')
    requires MonitorFinish(schedule, inbound) == 1 + MonitorFinish(schedule[1..], inbound')
    ensures EndTurn(schedule, out, inbound) == 1 + EndTurn(schedule[1..], out', inbound')
  {
  }

  /** An outgoing turn on a step that does not end the pump: it takes that
      step, and the rest of the session takes the rest. */
  lemma TakenOutgoingStep(schedule: seq<Side>, out: seq<Step>, inbound: seq<ReadResult>)
    requires |schedule| > 0 && schedule[0] == Outgoing
    requires |out| > 0 && !Ends(out[0])
    ensures Taken(schedule, out, inbound) == 1 + Taken(schedule[1..], out[1..], inbound)
  {
    PumpFinishStep(schedule, out);
    MonitorFinishIdle(schedule, inbound);
    EndTurnStep(schedule, out, inbound, out[1..], inbound);
    CountPrefix(schedule, EndTurn(schedule, out, inbound), Outgoing);
  }

  /** An incoming turn on a successful read: the pump takes nothing on it. */
  lemma TakenIncomingStep(schedule: seq<Side>, out: seq<Step>, inbound: seq<ReadResult>)
    requires |schedule| > 0 && schedule[0] == Incoming
    requires |inbound| > 0 && inbound[0].Received?
    ensures Taken(schedule, out, inbound) == Taken(schedule[1..], out, inbound[1..])
  {
    PumpFinishIdle(schedule, out);
    MonitorFinishStep(schedule, inbound);
    EndTurnStep(schedule, out, inbound, out, inbound[1..]);
    CountPrefix(schedule, EndTurn(schedule, out, inbound), Outgoing);
  }

  /** An outgoing turn on a step that ends the pump is the last turn, and the
      pump takes exactly that step. */
  lemma TakenOutgoingEnd(schedule: seq<Side>, out: seq<Step>, inbound: seq<ReadResult>)
    requires |schedule| > 0 && schedule[0] == Outgoing
    requires |out| > 0 && Ends(out[0])
    ensures Taken(schedule, out, inbound) == 1
  {
    PumpFinishNow(schedule, out);
    MonitorFinishIdle(schedule, inbound);
    assert EndTurn(schedule, out, inbound) == 1;
    CountPrefix(schedule, 1, Outgoing);
  }

  /** An incoming turn that ends the monitor is the last turn, and the pump
      takes nothing. */
  lemma TakenIncomingEnd(schedule: seq<Side>, out: seq<Step>, inbound: seq<ReadResult>)
    requires |schedule| > 0 && schedule[0] == Incoming
    requires |inbound| == 0 || inbound[0].ReadError?
    ensures Taken(schedule, out, inbound) == 0
  {
    MonitorFinishNow(schedule, inbound);
    PumpFinishIdle(schedule, out);
    assert EndTurn(schedule, out, inbound) == 1;
    CountPrefix(schedule, 1, Outgoing);
  }

  /** The session writes exactly what the pump writes on the channel steps it
      takes before the `select!` returns: nothing it had not yet received,
      nothing after either loop finished. */
  lemma {:induction false} RaceWritesTaken(schedule: seq<Side>, out: seq<Step>,
                                           inbound: seq<ReadResult>)
    ensures Race(schedule, out, inbound).written ==
      Pump(out[..Taken(schedule, out, inbound)]).written
    decreases |schedule|
  {
    if |schedule| == 0 {
    } else if schedule[0] == Outgoing {
      if |out| == 0 {
      } else if !Ends(out[0]) {
        var t := Taken(schedule[1..], out[1..], inbound);
        TakenOutgoingStep(schedule, out, inbound);
        RaceWritesTaken(schedule[1..], out[1..], inbound);
        assert out[..t + 1][0] == out[0];
        assert out[..t + 1][1..] == out[1..][..t];
      } else {
        TakenOutgoingEnd(schedule, out, inbound);
        assert out[..1][0] == out[0];
      }
    } else if |inbound| > 0 && inbound[0].Received? {
      TakenIncomingStep(schedule, out, inbound);
      RaceWritesTaken(schedule[1..], out, inbound[1..]);
    } else {
      TakenIncomingEnd(schedule, out, inbound);
    }
  }

  /** With both loops scheduled the first to finish decides: a closed
      channel on the first outgoing turn ends the session before the monitor
      moves, and an ended socket stream on the first incoming turn ends it
      before the pump moves. */
  lemma FirstFinisherExamples()
    ensures Race([Outgoing, Incoming], [Step(Closed, true)], []).end == OutgoingEnded(ChannelClosed)
    ensures Race([Incoming, Outgoing], [Step(Closed, true)], []).end == IncomingEnded(StreamEnded)
  {
  }

  /** The text sent right after a successful subscribe. */
  const ConnectedText := "Connected to stream"

  /** How a connection attempt went. A rejected attempt holds no messages:
      the handler returned before writing to the socket. `sent` lists the
      messages handed to the socket, in order, before the handler returns. */
  datatype Outcome =
    | Rejected(reason: Rejection)
    | Served(key: string, sender: Sender, sent: seq<Message>, end: SessionEnd)

  /** The handler. `out` is what the new subscription on `sender` yields,
      each paired with the fate of the send it causes; `inbound` is what the
      socket's read half yields. The result of sending the greeting is
      discarded by the source, so it is not an input here. */
  method HandleClient(clients: Clients, requested: string, schedule: seq<Side>,
                      out: seq<Step>, inbound: seq<ReadResult>)
    returns (r: Outcome)
    ensures r == Rejected(StreamNotFound) <==> !AnyMatch(clients.Keys, requested)
    ensures r != Rejected(EntryMissing)
    ensures r == Rejected(NoSenders) ==>
      exists k :: k in clients && Matches(k, requested) && |clients[k]| == 0
    ensures Admits(clients, requested) ==> r.Served?
    ensures OneSenderEach(clients) ==> (r.Served? <==> AnyMatch(clients.Keys, requested))
    ensures r.Served? ==>
      && r.key in clients && Matches(r.key, requested)
      && |clients[r.key]| > 0 && r.sender == clients[r.key][0]
      && |r.sent| >= 1 && r.sent[0] == Text(ConnectedText)
      && |r.sent| - 1 <= |Pump(out).written|
      && (forall i :: 1 <= i < |r.sent| ==> r.sent[i] == Binary(Pump(out).written[i - 1]))
    ensures r.Served? && r.end.OutgoingEnded? ==>
      |r.sent| == 1 + |Pump(out).written| && r.end.pumpStop == Pump(out).stop
    ensures r.Served? && r.end.IncomingEnded? ==> r.end.monitorStop == Monitor(inbound).stop
    ensures r.Served? ==>
      && |r.sent| == 1 + |Delivered(schedule, out, inbound)|
      && forall i :: 1 <= i < |r.sent| ==>
           r.sent[i] == Binary(Delivered(schedule, out, inbound)[i - 1])
    ensures r.Served? ==> r.end == FirstEnd(schedule, out, inbound)
  {
    var found := FindKey(clients.Keys, requested);
    var sub := Subscribe(clients, found);
    if sub.Err? {
      return Rejected(sub.error);
    }
    var session := Race(schedule, out, inbound);
    RaceFollowsTasks(schedule, out, inbound);
    RaceEndsAtFirstFinish(schedule, out, inbound);
    RaceWritesTaken(schedule, out, inbound);
    var w := session.written;
    var frames := seq(|w|, i requires 0 <= i < |w| => Binary(w[i]));
    r := Served(found.value, sub.value, [Text(ConnectedText)] + frames, session.end);
  }
}

=== FILE: startup.dfy ===
/** Process start-up in `main` (src/main.rs:26-77): credentials and stream
    URLs from the environment, one broadcast channel per stream registered in
    the client map, one pipeline per stream, and the stream names handed to
    the viewer page. */
module Startup {
  import opened Common
  import opened Ascii
  import opened Gateway

  /** The process environment as `env::vars()` lists it. */
  type Env = seq<(string, string)>

  predicate StartsWith(s: string, prefix: string)
  {
    |prefix| <= |s| && s[..|prefix|] == prefix
  }

  const StreamPrefix := "CCTV_"
  const CredentialPrefix := "CCTV_CRED_"

  /** Variables naming a camera stream: the stream prefix, but not the
      credential prefix. */
  predicate IsStreamKey(key: string)
  {
    StartsWith(key, StreamPrefix) && !StartsWith(key, CredentialPrefix)
  }

  /** The names of the stream variables of `env`. */
  ghost function SelectedNames(env: Env): set<string>
  {
    set i | 0 <= i < |env| && IsStreamKey(env[i].0) :: env[i].0
  }

  /** No later entry of `env` has the name of entry `i`. */
  ghost predicate IsLastOccurrence(env: Env, i: int)
    requires 0 <= i < |env|
  {
    forall j :: i < j < |env| ==> env[j].0 != env[i].0
  }

  /** The loop over `env::vars()` inserting into a map; what it computes is
      stated by SelectStreamsKeys and SelectStreamsValues. */
  function SelectStreams(env: Env): (m: map<string, string>)
    ensures forall k :: k in m ==> IsStreamKey(k)
  {
    if |env| == 0 then map[]
    else
      var rest := SelectStreams(env[..|env| - 1]);
      var (k, v) := env[|env| - 1];
      if IsStreamKey(k) then rest[k := v] else rest
  }

  /** The key set is every selected variable name, kept whole. */
  lemma {:induction false} SelectStreamsKeys(env: Env)
    ensures SelectStreams(env).Keys == SelectedNames(env)
  {
    if |env| > 0 {
      var n := |env| - 1;
      var prefix := env[..n];
      SelectStreamsKeys(prefix);
      forall x | x in SelectedNames(env)
        ensures x in SelectedNames(prefix) + (if IsStreamKey(env[n].0) then {env[n].0} else {})
      {
        var i :| 0 <= i < |env| && IsStreamKey(env[i].0) && env[i].0 == x;
        if i < n {
          assert prefix[i].0 == x;
        }
      }
      forall x | x in SelectedNames(prefix)
        ensures x in SelectedNames(env)
      {
        var i :| 0 <= i < n && IsStreamKey(prefix[i].0) && prefix[i].0 == x;
        assert env[i].0 == x;
      }
    }
  }

  /** Each selected name maps to the value of its last occurrence, since a
      later insert replaces an earlier one. */
  lemma {:induction false} SelectStreamsValues(env: Env)
    ensures forall k :: k in SelectStreams(env) ==>
      exists i :: 0 <= i < |env| && env[i] == (k, SelectStreams(env)[k]) && IsLastOccurrence(env, i)
  {
    if |env| > 0 {
      var n := |env| - 1;
      var prefix := env[..n];
      var rest := SelectStreams(prefix);
      var m := SelectStreams(env);
      SelectStreamsValues(prefix);
      forall k | k in m
        ensures exists i :: 0 <= i < |env| && env[i] == (k, m[k]) && IsLastOccurrence(env, i)
      {
        if IsStreamKey(env[n].0) && k == env[n].0 {
          assert env[n] == (k, m[k]) && IsLastOccurrence(env, n);
        } else {
          assert k in rest && m[k] == rest[k];
          var i :| 0 <= i < n && prefix[i] == (k, rest[k]) && IsLastOccurrence(prefix, i);
          assert env[i] == (k, m[k]);
          assert IsLastOccurrence(env, i);
        }
      }
    }
  }

  /** In an environment without repeated names a variable is selected exactly
      when its name is a stream key, and keeps its value. */
  lemma SelectStreamsOfDistinct(env: Env, i: nat)
    requires forall a, b :: 0 <= a < b < |env| ==> env[a].0 != env[b].0
    requires i < |env|
    ensures env[i].0 in SelectStreams(env) <==> IsStreamKey(env[i].0)
    ensures IsStreamKey(env[i].0) ==> SelectStreams(env)[env[i].0] == env[i].1
  {
    var m := SelectStreams(env);
    SelectStreamsKeys(env);
    SelectStreamsValues(env);
    if IsStreamKey(env[i].0) {
      assert env[i].0 in SelectedNames(env);
      var j :| 0 <= j < |env| && env[j] == (env[i].0, m[env[i].0]) && IsLastOccurrence(env, j);
      assert j == i;
    }
  }

  /** `env::var(name)`: the first occurrence, as the C library's `getenv`
      finds it. */
  function EnvVar(env: Env, name: string): (r: Option<string>)
    ensures r.None? <==> forall i :: 0 <= i < |env| ==> env[i].0 != name
    ensures r.Some? ==>
      exists i :: 0 <= i < |env| && env[i] == (name, r.value)
        && forall j :: 0 <= j < i ==> env[j].0 != name
  {
    if |env| == 0 then None
    else if env[0].0 == name then Some(env[0].1)
    else
      var r := EnvVar(env[1..], name);
      assert forall i :: 1 <= i < |env| ==> env[i] == env[1..][i - 1];
      r
  }

  const UserVar := "CCTV_CRED_USER"
  const PassVar := "CCTV_CRED_PASS"
  const DefaultUser := "admin"
  const DefaultPass := "aaaa1111"

  datatype Credentials = Credentials(user: string, pass: string)

  /** Camera credentials, falling back to the built-in defaults when a
      variable is absent and taking its first occurrence otherwise. */
  function ReadCredentials(env: Env): (c: Credentials)
    ensures (forall i :: 0 <= i < |env| ==> env[i].0 != UserVar) ==> c.user == DefaultUser
    ensures (forall i :: 0 <= i < |env| ==> env[i].0 != PassVar) ==> c.pass == DefaultPass
    ensures (exists i :: 0 <= i < |env| && env[i].0 == UserVar) ==>
      exists i :: 0 <= i < |env| && env[i] == (UserVar, c.user)
        && forall j :: 0 <= j < i ==> env[j].0 != UserVar
    ensures (exists i :: 0 <= i < |env| && env[i].0 == PassVar) ==>
      exists i :: 0 <= i < |env| && env[i] == (PassVar, c.pass)
        && forall j :: 0 <= j < i ==> env[j].0 != PassVar
  {
    var user := EnvVar(env, UserVar);
    var pass := EnvVar(env, PassVar);
    Credentials(if user.Some? then user.value else DefaultUser,
                if pass.Some? then pass.value else DefaultPass)
  }

  /** Ring size each stream's broadcast channel is created with. */
  const ChannelCapacity := 100

  /** The arguments one pipeline thread is started with: camera URL,
      credentials, the sending half of the stream's channel, and the name. */
  datatype Pipeline<K> =
    Pipeline(url: string, user: string, pass: string, sender: Sender, stream: K)

  /** The pipeline the set-up loop starts for stream `name` on its turn
      numbered `i`, with the `i`-th channel created. */
  function StartPipeline<K>(streams: map<K, string>, cred: Credentials, name: K, i: nat)
    : Pipeline<K>
    requires name in streams
  {
    Pipeline(streams[name], cred.user, cred.pass, Sender(i, ChannelCapacity), name)
  }

  /** The client map after inserting, in order, each started pipeline's
      stream with that pipeline's sender as its only sender. */
  function ClientsOf<K>(pipelines: seq<Pipeline<K>>): Registry<K>
  {
    if |pipelines| == 0 then map[]
    else
      var last := pipelines[|pipelines| - 1];
      ClientsOf(pipelines[..|pipelines| - 1])[last.stream := [last.sender]]
  }

  /** Pipeline `i` carries the `i`-th channel of the fixed capacity. */
  ghost predicate NumberedChannels<K>(pipelines: seq<Pipeline<K>>)
  {
    forall i :: 0 <= i < |pipelines| ==> pipelines[i].sender == Sender(i, ChannelCapacity)
  }

  /** No stream has two pipelines. */
  ghost predicate DistinctStreams<K>(pipelines: seq<Pipeline<K>>)
  {
    forall i, j :: 0 <= i < j < |pipelines| ==> pipelines[i].stream != pipelines[j].stream
  }

  /** Inserting one sender per distinct stream gives each pipeline's stream
      an entry holding exactly that pipeline's sender. */
  lemma {:induction false} ClientsOfEntries<K>(pipelines: seq<Pipeline<K>>)
    requires DistinctStreams(pipelines)
    ensures forall i :: 0 <= i < |pipelines| ==>
      && pipelines[i].stream in ClientsOf(pipelines)
      && ClientsOf(pipelines)[pipelines[i].stream] == [pipelines[i].sender]
  {
    if |pipelines| > 0 {
      var n := |pipelines| - 1;
      var prefix := pipelines[..n];
      assert forall i :: 0 <= i < n ==> prefix[i] == pipelines[i];
      ClientsOfEntries(prefix);
    }
  }

  /** Every key of the inserted map is the stream of some pipeline. */
  lemma {:induction false} ClientsOfKeys<K>(pipelines: seq<Pipeline<K>>)
    ensures forall k :: k in ClientsOf(pipelines) ==>
      exists i :: 0 <= i < |pipelines| && pipelines[i].stream == k
  {
    if |pipelines| > 0 {
      var n := |pipelines| - 1;
      var prefix := pipelines[..n];
      ClientsOfKeys(prefix);
      assert ClientsOf(pipelines) ==
        ClientsOf(prefix)[pipelines[n].stream := [pipelines[n].sender]];
      forall k | k in ClientsOf(pipelines)
        ensures exists i :: 0 <= i < |pipelines| && pipelines[i].stream == k
      {
        if k != pipelines[n].stream {
          var i :| 0 <= i < n && prefix[i].stream == k;
          assert pipelines[i] == prefix[i];
        }
      }
    }
  }

  /** With channels numbered by pipeline, every entry of the inserted map has
      one sender of the fixed capacity whose number leads back to the
      pipeline started for that entry's stream. */
  lemma ClientsOfChannels<K>(pipelines: seq<Pipeline<K>>)
    requires NumberedChannels(pipelines)
    requires DistinctStreams(pipelines)
    ensures forall k :: k in ClientsOf(pipelines) ==>
      && |ClientsOf(pipelines)[k]| == 1
      && ClientsOf(pipelines)[k][0].capacity == ChannelCapacity
      && ClientsOf(pipelines)[k][0].channel < |pipelines|
      && pipelines[ClientsOf(pipelines)[k][0].channel].stream == k
  {
    var m: Registry<K> := ClientsOf(pipelines);
    ClientsOfEntries(pipelines);
    ClientsOfKeys(pipelines);
    forall k | k in m
      ensures |m[k]| == 1 && m[k][0].capacity == ChannelCapacity
      ensures m[k][0].channel < |pipelines| && pipelines[m[k][0].channel].stream == k
    {
      var i :| 0 <= i < |pipelines| && pipelines[i].stream == k;
      assert m[k] == [Sender(i, ChannelCapacity)];
    }
  }

  /** The keys of a map in its iteration order, which is unspecified for a
      `HashMap`: every key exactly once. Both loops of `main` over a map, and
      `keys().cloned().collect()`, visit the keys this way. */
  method Enumerate<K, V>(m: map<K, V>) returns (keys: seq<K>)
    ensures forall i :: 0 <= i < |keys| ==> keys[i] in m
    ensures forall k :: k in m ==> k in keys
    ensures forall i, j :: 0 <= i < j < |keys| ==> keys[i] != keys[j]
    ensures |keys| == |m|
  {
    keys := [];
    var remaining := m.Keys;
    while remaining != {}
      invariant remaining <= m.Keys
      invariant forall k :: k in keys <==> k in m && k !in remaining
      invariant forall i, j :: 0 <= i < j < |keys| ==> keys[i] != keys[j]
      invariant |keys| + |remaining| == |m|
      decreases remaining
    {
      var k :| k in remaining;
      keys := keys + [k];
      remaining := remaining - {k};
    }
  }

  /** What the set-up loop's invariant gives once every stream in the
      iteration order has had its turn. */
  lemma SetupComplete<K>(streams: map<K, string>, cred: Credentials, order: seq<K>,
                         clients: Registry<K>, pipelines: seq<Pipeline<K>>)
    requires forall i :: 0 <= i < |order| ==> order[i] in streams
    requires forall k :: k in streams ==> k in order
    requires forall i, j :: 0 <= i < j < |order| ==> order[i] != order[j]
    requires |order| == |streams|
    requires clients == ClientsOf(pipelines)
    requires |pipelines| == |order|
    requires forall i :: 0 <= i < |order| ==>
      pipelines[i] == StartPipeline(streams, cred, order[i], i)
    ensures clients.Keys == streams.Keys
    ensures OneSenderEach(clients)
    ensures forall k :: k in clients ==> clients[k][0].capacity == ChannelCapacity
    ensures forall k1, k2 :: k1 in clients && k2 in clients && k1 != k2 ==>
      clients[k1][0].channel != clients[k2][0].channel
    ensures forall i :: 0 <= i < |pipelines| ==>
      pipelines[i].stream in clients && clients[pipelines[i].stream] == [pipelines[i].sender]
    ensures DistinctStreams(pipelines)
  {
    assert DistinctStreams(pipelines);
    ClientsOfEntries(pipelines);
    ClientsOfKeys(pipelines);
    ClientsOfChannels(pipelines);
  }

  /** The body of the set-up loop run over the streams in the order given: on
      turn `i`, channel `i` is created, registered under the stream's name
      as its sole sender, and a pipeline is started with the stream's URL,
      the credentials and a clone of that sender. */
  method StartInOrder<K>(streams: map<K, string>, cred: Credentials, order: seq<K>)
    returns (clients: Registry<K>, pipelines: seq<Pipeline<K>>)
    requires forall i :: 0 <= i < |order| ==> order[i] in streams
    ensures |pipelines| == |order|
    ensures forall i :: 0 <= i < |order| ==>
      pipelines[i] == StartPipeline(streams, cred, order[i], i)
    ensures clients == ClientsOf(pipelines)
  {
    clients := map[];
    pipelines := [];
    for j := 0 to |order|
      invariant |pipelines| == j
      invariant clients == ClientsOf(pipelines)
      invariant forall i :: 0 <= i < j ==> pipelines[i] == StartPipeline(streams, cred, order[i], i)
    {
      var name := order[j];
      var tx := Sender(j, ChannelCapacity);
      var started := pipelines + [Pipeline(streams[name], cred.user, cred.pass, tx, name)];
      assert started[..j] == pipelines;
      clients := clients[name := [tx]];
      pipelines := started;
    }
  }

  /** The loop over the selected streams in the map's iteration order: every
      stream gets its own channel of the fixed capacity, registered as its
      only sender, and one pipeline started with its URL, the credentials and
      that stream's sender. */
  method SetupStreams<K>(streams: map<K, string>, cred: Credentials)
    returns (clients: Registry<K>, pipelines: seq<Pipeline<K>>)
    ensures clients.Keys == streams.Keys
    ensures OneSenderEach(clients)
    ensures forall k :: k in clients ==> clients[k][0].capacity == ChannelCapacity
    ensures forall k1, k2 :: k1 in clients && k2 in clients && k1 != k2 ==>
      clients[k1][0].channel != clients[k2][0].channel
    ensures |pipelines| == |streams|
    ensures DistinctStreams(pipelines)
    ensures forall i :: 0 <= i < |pipelines| ==>
      && pipelines[i].stream in streams
      && pipelines[i] == StartPipeline(streams, cred, pipelines[i].stream, i)
      && clients[pipelines[i].stream] == [pipelines[i].sender]
  {
    var order := Enumerate(streams);
    clients, pipelines := StartInOrder(streams, cred, order);
    SetupComplete(streams, cred, order, clients, pipelines);
  }

  /** Each registered stream has exactly one pipeline, started with the
      stream's URL and the credentials, whose sender is the one registered. */
  ghost predicate OnePipelineEach<K>(streams: map<K, string>, cred: Credentials,
                                     clients: Registry<K>, pipelines: seq<Pipeline<K>>)
  {
    && |pipelines| == |clients|
    && DistinctStreams(pipelines)
    && forall i :: 0 <= i < |pipelines| ==>
      && pipelines[i].stream in clients
      && clients[pipelines[i].stream] == [pipelines[i].sender]
      && pipelines[i].stream in streams
      && pipelines[i].url == streams[pipelines[i].stream]
      && pipelines[i].user == cred.user
      && pipelines[i].pass == cred.pass
  }

  /** The set-up loop as the rest of start-up sees it: the registry covers
      the selected streams, one sender each, one pipeline per stream. */
  method Launch<K>(streams: map<K, string>, cred: Credentials)
    returns (clients: Registry<K>, pipelines: seq<Pipeline<K>>)
    ensures clients.Keys == streams.Keys
    ensures OneSenderEach(clients)
    ensures OnePipelineEach(streams, cred, clients, pipelines)
  {
    clients, pipelines := SetupStreams(streams, cred);
  }

  /** The keys of `m` in some order, each once: a sequence as long as the
      map whose element set is exactly the key set. */
  method ListKeys<K, V>(m: map<K, V>) returns (keys: seq<K>)
    ensures m.Keys == set i | 0 <= i < |keys| :: keys[i]
    ensures forall i :: 0 <= i < |keys| ==> keys[i] in m
    ensures |keys| == |m|
  {
    keys := Enumerate(m);
  }

  /** The page opens `/ws/` followed by the lower-cased name. For a client map
      built at start-up that request always reaches a key with a sender, so
      the handler serves it. */
  lemma PageRequestServed(clients: Clients, name: string)
    requires OneSenderEach(clients)
    requires name in clients
    ensures Admits(clients, Lower(name))
  {
    LowerRequestMatches(name);
  }

  /** Every page the index lists names a registered stream, so each of its
      requests passes the subscribe gate. */
  lemma PagesServed(clients: Clients, names: seq<string>)
    requires OneSenderEach(clients)
    requires forall i :: 0 <= i < |names| ==> names[i] in clients
    ensures forall i :: 0 <= i < |names| ==> Admits(clients, Lower(names[i]))
  {
    forall i | 0 <= i < |names|
      ensures Admits(clients, Lower(names[i]))
    {
      PageRequestServed(clients, names[i]);
    }
  }

  /** The names the index page lists, one link each, every one of which the
      gate lets through once lower-cased. */
  method PageNames(clients: Clients) returns (names: seq<string>)
    requires OneSenderEach(clients)
    ensures clients.Keys == set i | 0 <= i < |names| :: names[i]
    ensures |names| == |clients|
    ensures forall i :: 0 <= i < |names| ==> Admits(clients, Lower(names[i]))
  {
    names := ListKeys(clients);
    PagesServed(clients, names);
  }

  /** Everything `main` sets up before it starts serving. */
  datatype Setup = Setup(cred: Credentials, streams: map<string, string>, clients: Clients,
                         pipelines: seq<Pipeline<string>>, pageNames: seq<string>)

  /** Start-up as a whole: the registered names are exactly the selected
      variable names, each with one sender, and every name the page lists
      is one the handler will serve. */
  method Start(env: Env) returns (s: Setup)
    ensures s.clients.Keys == SelectedNames(env)
    ensures OneSenderEach(s.clients)
    ensures s.cred == ReadCredentials(env)
    ensures s.streams == SelectStreams(env)
    ensures OnePipelineEach(s.streams, s.cred, s.clients, s.pipelines)
    ensures s.clients.Keys == set i | 0 <= i < |s.pageNames| :: s.pageNames[i]
    ensures |s.pageNames| == |s.clients|
    ensures forall i :: 0 <= i < |s.pageNames| ==> Admits(s.clients, Lower(s.pageNames[i]))
  {
    var cred := ReadCredentials(env);
    var streams := SelectStreams(env);
    SelectStreamsKeys(env);
    var clients, pipelines := Launch(streams, cred);
    var names := PageNames(clients);
    s := Setup(cred, streams, clients, pipelines, names);
  }
}
